=== FILE: README.md ===
# School records manager, modelled in Dafny

The system is a command-line school records manager. `SchoolManager` keeps
three tables in memory:

- `students`, keyed by student id;
- `courses`, keyed by course id;
- `enrollments`, keyed by the pair (student id, course id).

Each student also carries an index of its courses. Each course carries a
roster of its students and a map of grades by student id. At start-up the
three tables are loaded from three comma-separated files, each with a header
row. After that, each change is written back to its file:

- registering a student appends a record;
- enrolling a student appends a record;
- recording a grade rewrites the whole enrollments file.

The model has three modules.

- `CsvRows` (`rows.dfy`) covers the files as rows of fields:
  - how many records the dictionary reader yields, since blank lines are skipped;
  - the decimal id of a new student;
  - the table that loading a file produces, where the last record with a key wins;
  - the grade rewrite of the enrollments file, as the function `Rewritten`
    and the loop `RewriteGradeRows` with its `is_added` flag.
- `Records` (`records.dfy`) covers the records as values:
  - the `Student`, `Course` and `Enrollment` index methods;
  - the three tables as one `Store` value;
  - each change the program makes to the store, written as a function (`PutStudent`, `PutEnrollment`, `PutGrade`, `Regrade`, the loading folds);
  - the agreement of the indices with the enrollment table (`Consistent`, `Exact`), and lemmas that every change keeps it.
- `School` (`school.dfy`) is the `SchoolManager` class:
  - its map fields and the contents of its three files;
  - loaders with loop invariants;
  - the append and rewrite writers;
  - the menu operations, with input values as parameters and printed messages as a `Status` result;
  - the two displays, as lookups that return what would be printed.

Every method states its new tables as a `Records` function of the old ones,
and its new file contents record by record. It also states what it keeps:

- `Valid()`: the indices agree with the enrollment table;
- `Exact(...)`: each student index is complete and roster names match the student table;
- the mirror predicates: reloading a file would give back its table.

Behaviours of the program worth knowing:

- **A new id can already be taken.** The new id is the number of records plus
  one. A students file that numbers its records 1, 2, 3, ... in order is
  sufficient for that id to be fresh (`NextIdFresh`). Other files can give an
  id that is taken: a file whose only record has id "2" gives "2" again
  (`IdCollision`). The new student then displaces the old one.
- **A header row is what makes ids advance.** On a students file holding just
  its header, two registrations get "1" and then "2" (`FirstIds`). On a file
  with no header row, the first record written is read as the header, so the
  second registration gets "1" again.
- **Grading on an enrollments file without a header loses a record.** If the
  file starts empty, enrolling a student makes its only row that student's
  record. Grading then reads that row as the header, finds no records,
  reports the grade as not recorded, and rewrites the file to the bare header.
- **A grade that matches no record still rewrites the file.** The rewrite
  always happens. It drops blank lines, writes the standard header and keeps
  only the four named fields of each record. So the file is unchanged only
  when it was already in that form (`StandardEnrollmentsFile`).
- **Re-enrolling a pair overwrites the earlier enrollment.** The enrollment
  table ignores the semester, so the earlier entry is replaced in memory while
  both records stay in the file. Grading then matches records by (student,
  course, semester) but updates the pair's single in-memory enrollment. File
  and table can drift when a record of another semester of the pair matches:
  that record gets the grade in the file, while the enrollment in memory,
  which is of a different semester, gets it in memory. They stay in step when
  the graded semester is the stored one (`RegradeMirror`) and when no record
  matches. Re-enrolling a graded pair also resets the enrollment's grade to
  none while the course keeps the old grade, so the student's card still shows
  the grade and the course's card does not.

## Model

| member | source | states |
|---|---|---|
| Records.Student.AddCourse | main.py:12-13 | the student's index gains the course's id; the other courses and the id, name and email are unchanged |
| Records.Course.AddStudent | main.py:27-28 | the roster maps the student's id to the student; the other roster entries, the grades and the course's fields are unchanged |
| Records.Course.AddGrade | main.py:33-34 | the grade map gives the student's id the new grade, replacing any earlier one; nothing else changes |
| Records.Enrollment.SetGrade | main.py:47-48 | the enrollment's grade becomes the given grade; student, course and semester are unchanged |
| School.SchoolManager.constructor | main.py:56-65 | on loadable files, the tables are the start-up store `Loaded`: consistent, exact, each reloading as its file, and each course's grades being the last non-empty grade of each of its students |
| School.SchoolManager.Load | main.py:63-65 | runs the three loaders in order on empty tables and establishes what the constructor promises |
| School.SchoolManager.LoadStudents | main.py:67-81 | the header row is skipped and each record puts a student with an empty index under its id, in file order (`LoadStudentRecords`) |
| School.SchoolManager.LoadCourses | main.py:83-97 | the header row is skipped and each record puts a course with empty roster and grades under its id, in file order (`LoadCourseRecords`) |
| School.SchoolManager.LoadEnrollments | main.py:99-120 | the header row is skipped and every record is loaded in file order (`LoadEnrollmentRecords`) |
| School.SchoolManager.LoadEnrollment | main.py:110-120 | one record: the enrollment is stored and linked both ways, and the grade goes into the course only when non-empty (`LoadEnrollmentRecord`) |
| School.SchoolManager.Enroll | main.py:114-118 | the new tables are `PutEnrollment` of the old ones |
| Records.LoadEnrollmentRecordGrades | main.py:119-120 | loading a record changes the grades of its own course only, and only when its grade is non-empty |
| Records.LoadEnrollmentRecordsGrades | main.py:108-120 | loading enrollment records adds to each course the last non-empty grade of each student |
| Records.LoadEnrollmentRecordRows | main.py:110-118 | loading a record puts it under its pair in the enrollment table and changes no student or course record |
| Records.LoadEnrollmentRecordsRows | main.py:106-118 | after loading, the enrollment table holds, for each pair, the last record of that pair |
| Records.LoadStudentRecordsBlank | main.py:76-81 | loading student records keeps the store blank, and the table holds the last record of each id |
| Records.LoadCourseRecordsBlank | main.py:92-97 | loading course records keeps the store blank, and the table holds the last record of each id |
| Records.CataloguedKnown | main.py:112-118 | on loadable files, every enrollment record names a student and a course that were loaded before it |
| Records.CataloguedBlank | main.py:63-64 | after students and courses are loaded, no enrollment exists, every index is empty, and each table is its file keyed by id |
| Records.LoadedConsistent | main.py:56-65 | the start-up store is consistent and exact: rosters, student indices and grade maps agree with the enrollment table |
| Records.LoadedMirrors | main.py:56-65 | each table of the start-up store reloads as its own file |
| Records.LoadedGrades | main.py:99-120 | each course's grade map at start-up is the last non-empty grade per student among its enrollment records |
| Records.LoadedSizes | main.py:67-120 | files whose records have distinct ids load into as many students and courses as they have records; an enrollments file whose records have distinct (student, course) pairs loads into as many enrollments |
| Records.LoadEnrollmentRecordConsistent | main.py:110-120 | loading one enrollment record keeps the store consistent and exact |
| Records.LoadEnrollmentRecordsConsistent | main.py:108-120 | loading enrollment records keeps the store consistent and exact |
| Records.BlankConsistent | main.py:57-59 | a store with no enrollments and empty indices is consistent and exact |
| Records.PutEnrollmentFrame | main.py:201-208 | storing an enrollment changes only the entry of its pair, the student's index and the course's roster |
| Records.PutEnrollmentKeyed | main.py:205-208 | storing an enrollment keeps every table keyed by id and every enrollment pointing at a stored student and course |
| Records.PutEnrollmentRostered | main.py:205-208 | storing an enrollment keeps each roster equal to its course's enrollments, and grades only for rostered students |
| Records.PutEnrollmentListed | main.py:205-208 | storing an enrollment keeps each student index within its enrollments |
| Records.PutEnrollmentConsistent | main.py:205-208 | storing an enrollment keeps the store consistent |
| Records.PutEnrollmentIndexed | main.py:205-208 | storing an enrollment keeps each student index equal to its enrollments |
| Records.PutEnrollmentNamed | main.py:205-208 | storing an enrollment keeps roster entries named as the students they stand for |
| Records.PutEnrollmentExact | main.py:205-208 | storing an enrollment keeps the store exact |
| Records.PutStudentConsistent | main.py:181-182 | putting a new student with an empty index keeps the store consistent, even when it displaces a student with the same id |
| Records.PutStudentExact | main.py:181-182 | putting a student under an id not yet used keeps the store exact |
| Records.PutGradeConsistent | main.py:142 | recording a grade for an enrolled student keeps the store consistent |
| Records.PutGradeExact | main.py:142 | recording a grade keeps the store exact |
| Records.SetGradeConsistent | main.py:141 | giving an enrollment a grade keeps the store consistent and exact |
| Records.RegradeConsistent | main.py:141-142 | grading an enrolled pair keeps the store consistent and exact |
| Records.StudentsAppend | main.py:122-125 | when the file is non-empty (has its header row), appending a student's record to a file that mirrors the table gives a file that mirrors the updated table |
| Records.EnrollmentsAppend | main.py:165-168 | when the file is non-empty (has its header row), appending an enrollment's record to a mirroring file gives a file that mirrors the updated table, the record replacing its pair's earlier entry |
| Records.RegradeMirror | main.py:133-150 | when the file mirrors the table and the stored enrollment has the graded semester, some record matches, and the rewritten file mirrors the regraded table |
| School.SchoolManager.WriteStudent | main.py:122-125 | exactly one record `[id, name, email]` is appended to the students file |
| School.SchoolManager.WriteEnrollment | main.py:165-168 | exactly one record `[student id, course id, semester, grade]` is appended, with an absent grade written as an empty field |
| School.SchoolManager.WriteGrade | main.py:127-163 | `isAdded` holds exactly when some record matches the triple. The file becomes the standard header followed by the rewritten records. If a record matched, the tables are `Regrade` of the old ones; if none did, they are unchanged. Consistency and exactness are kept. A standard file is unchanged when nothing matches |
| CsvRows.RewriteGradeRows | main.py:133-150 | the loop builds exactly `Rewritten` of the records, and its flag is true exactly when some record matches the triple |
| CsvRows.RewrittenAt | main.py:133-150 | the rewrite keeps the number and order of the records; a matching record gets the grade in its fourth field, and every other four-field record is copied unchanged |
| CsvRows.RewrittenCount | main.py:133-150 | the rewritten file holds one record per record the dictionary reader yields |
| CsvRows.RewrittenNoMatch | main.py:144-150 | with no matching record, four-field records are rewritten unchanged |
| CsvRows.UnmatchedRewriteKeepsFile | main.py:152-163 | when no record matches, a standard enrollments file is written back identical |
| CsvRows.RewrittenIdempotent | main.py:133-150 | when every record has its student, course and semester fields, recording the same grade twice gives the same file as recording it once |
| CsvRows.ByPairRewritten | main.py:133-150 | reloading the rewritten file gives the rewrite of each pair's entry |
| CsvRows.RegradeEntriesAt | main.py:135-149 | the rewrite changes at most the graded pair's entry, and only when its semester is the graded one |
| CsvRows.RecordCountAppend | main.py:172-174 | appending a non-blank record adds exactly one to the count the dictionary reader gives |
| CsvRows.ParseDecimalString | main.py:174 | the decimal text of an id reads back as the same number |
| CsvRows.DecimalStringInjective | main.py:174 | distinct counts give distinct id texts |
| CsvRows.ByIdLastRow | main.py:76-81 | an id is loaded exactly when some record carries it, and its entry is the last such record |
| CsvRows.ByIdSize | main.py:76-81 | records with distinct ids load into exactly one entry each |
| CsvRows.ByPairSize | main.py:108-115 | records with distinct (student, course) pairs load into exactly one enrollment each |
| CsvRows.CourseGradesSound | main.py:119-120 | loading never records an empty grade, and records one only for a pair the file enrolls |
| CsvRows.ByPairFromRow | main.py:108-115 | every entry of the enrollment table is one of the file's records |
| School.NextIdFresh | main.py:171-174 | when the students file numbers its records 1, 2, 3, ... in order, the next id is not yet taken |
| School.IdCollision | main.py:171-174 | a file whose only record has id "2" gives the new student id "2", which is already loaded |
| School.NextIdAdvances | main.py:171-183 | appending a record to a students file with a header raises the count by one, so the next id changes |
| School.FirstIds | main.py:171-174 | with only a header the first two ids are "1" and "2"; without a header row the second id is again "1" |
| School.SchoolManager.AddStudent | main.py:170-183 | the id is the number of records plus one, in decimal. The new student, with an empty index, is stored under it, and exactly one record is appended. Consistency is kept, and exactness too when the id is new. When the file is non-empty (has its header row), the file keeps mirroring the table and a later registration gets a different id |
| School.SchoolManager.EnrollStudent | main.py:185-209 | an unknown student or course changes nothing and reports which. Otherwise the enrollment, with no grade, replaces any earlier one of the pair and is linked both ways, and exactly one record is appended. Consistency, exactness and the file mirror are kept |
| School.SchoolManager.EnrollAndWrite | main.py:205-209 | stores and links the enrollment and appends its record, keeping consistency, exactness and the file mirror |
| School.SchoolManager.GradeStudent | main.py:211-233 | a missing student, course or enrollment changes nothing and reports which. Otherwise the file is rewritten. The pair's enrollment and the course get the grade exactly when some record matches the triple. Consistency and exactness are kept |
| School.SchoolManager.DisplayStudent | main.py:235-251 | a card exists exactly for a stored student. It shows the name and email, and exactly one line per course in the student's index, with its name, credit and the course's grade for the student when non-empty, so a new student that took over an id shows no courses; on an exact store, the courses are exactly the student's enrollments |
| School.SchoolManager.DisplayCourse | main.py:253-269 | a card exists exactly for a stored course. It shows the name and credit, and exactly one line per enrolled student, with the name and email of the roster entry (for a displaced id, the earlier student's) and the grade of that enrollment when non-empty; on an exact store, these are the current student's name and email |
| School.Shown | main.py:248-251 | a grade is shown exactly when it is present and non-empty |
| School.Lookup | main.py:247 | a dictionary `get`: present exactly when the key is in the map, and then that key's value |

## Left out

- The menu loop, the `input()` prompts, the printed messages and the interrupt handling (main.py:271-296) are left out. Input values are parameters; messages become `Status` values or card values.
- Opening and closing the files, and csv quoting and escaping, are left out. Each file is the sequence of its rows, already split into fields, and is held in a field of the manager instead of under a path.
- The `if enrollment is None` check in `enroll_student` is not modelled, because a constructor call never returns `None`.
- The `__main__` entry point, with its hard-coded file paths, is left out.
- Dictionary order is not modelled. The displays return maps keyed by id, not lists in insertion order.
- Object identity is not modelled; records are values. A roster holds the student as it was when the course was linked, and the student index holds course ids. The displays still show what the program shows. Roster entries are read only for id, name and email, which never change after creation. A student's courses are read from the course table, whose entries are the very course objects the student's index points to, since courses are never replaced after loading.
- School.SchoolManager.constructor: records that cannot be unpacked, and enrollments naming an unloaded student or course, make the program stop. The model requires loadable files instead (`Loadable`), and does not model the crash.
- School.SchoolManager.GradeStudent: the enrollments file is read by column name. When it holds records (two rows or more), the model requires its first row to be the standard header. It does not model a header with the same columns in another order, or the crash a header lacking them causes. A file of one row is modelled: that row is read as the header, nothing matches, and the file is rewritten to the bare header, so an enrollment record written there is lost.
- School.SchoolManager.WriteGrade: the enrollments file is read by column name. When it holds two rows or more, the model requires its first row to be the standard header. A header with the same columns in another order, which the source reads correctly, is not modelled, nor the crash a header lacking them causes.
- School.SchoolManager.WriteGrade: in the source, `set_grade` and `add_grade` run inside the loop for every matching record. The model runs them once after the loop. They store the same values each time, so the end state is the same.
- School.SchoolManager.GradeStudent: file and table are stated to stay in step when no record matches, and when a record matches and the stored enrollment has the graded semester. When a matching record is of another semester than the stored enrollment, the source itself lets them drift, so nothing is promised there.
- School.SchoolManager.AddStudent: file and table are stated to stay in step only when the students file is non-empty. A file with no header row reads its first record as the header.
- School.SchoolManager.EnrollStudent: the file mirror is stated only when the enrollments file is non-empty, for the same reason.
- School.SchoolManager.AddStudent: exactness is stated only for a new id. A student that displaces one with the same id starts with an empty index, while the old enrollments remain.
- School.SchoolManager.DisplayCourse: requires the store to be consistent. On an inconsistent store the source fails when a roster entry has no enrollment.
- School.SchoolManager.DisplayStudent: requires the store to be consistent. The index holds course ids rather than course objects, so each indexed id must name a stored course.

=== FILE: records.dfy ===
/** The records of the school store (students, courses, enrollments) and the
    store's three tables as one value, with each change the program makes to
    them written as a function, and what those changes preserve. */
module Records {
  import opened CsvRows

  /** A student, with the index of the courses it is enrolled in, by course id. */
  datatype Student = Student(id: string, name: string, email: string, courses: set<string>)
  {
    /** The student with the course added to its index. */
    function AddCourse(course: Course): (s: Student)
      ensures s.id == id && s.name == name && s.email == email
      ensures course.id in s.courses && s.courses - {course.id} == courses - {course.id}
    {
      this.(courses := courses + {course.id})
    }
  }

  /** A course, with its roster (student id to the student enrolled under it)
      and the grade last recorded for each student. */
  datatype Course = Course(id: string, name: string, credit: string,
                           students: map<string, Student>, grades: map<string, string>)
  {
    /** The course with the student put on its roster under the student's id. */
    function AddStudent(student: Student): (c: Course)
      ensures c.id == id && c.name == name && c.credit == credit && c.grades == grades
      ensures student.id in c.students && c.students[student.id] == student
      ensures c.students - {student.id} == students - {student.id}
    {
      this.(students := students[student.id := student])
    }

    /** The course with the grade recorded for the student, replacing any earlier one. */
    function AddGrade(student: Student, grade: string): (c: Course)
      ensures c.id == id && c.name == name && c.credit == credit && c.students == students
      ensures student.id in c.grades && c.grades[student.id] == grade
      ensures c.grades - {student.id} == grades - {student.id}
    {
      this.(grades := grades[student.id := grade])
    }
  }

  /** An enrollment of a student in a course, by their ids; the grade is None
      until one is given, and a loaded record always carries its text. */
  datatype Enrollment = Enrollment(studentId: string, courseId: string, semester: string, grade: Option<string>)
  {
    /** The enrollment with the grade given. */
    function SetGrade(grade: string): (e: Enrollment)
      ensures e.grade == Some(grade)
      ensures e.studentId == studentId && e.courseId == courseId && e.semester == semester
    {
      this.(grade := Some(grade))
    }
  }

  /** The three tables: students by id, courses by id, and enrollments by
      (student id, course id). */
  datatype Store = Store(students: map<string, Student>, courses: map<string, Course>,
                         enrollments: map<(string, string), Enrollment>)

  const Empty := Store(map[], map[], map[])

  // ---------------------------------------------------------------------------
  // The changes the program makes to the tables

  /** Puts the student under its id, displacing any student with the same id. */
  function PutStudent(st: Store, s: Student): Store
  {
    st.(students := st.students[s.id := s])
  }

  /** Puts the course under its id, displacing any course with the same id. */
  function PutCourse(st: Store, c: Course): Store
  {
    st.(courses := st.courses[c.id := c])
  }

  /** Stores the enrollment under its pair, replacing any earlier one, adds the
      course to the student's index and then the student to the course's roster. */
  function PutEnrollment(st: Store, e: Enrollment): Store
    requires e.studentId in st.students && e.courseId in st.courses
  {
    var student := st.students[e.studentId].AddCourse(st.courses[e.courseId]);
    Store(st.students[e.studentId := student],
          st.courses[e.courseId := st.courses[e.courseId].AddStudent(student)],
          st.enrollments[(e.studentId, e.courseId) := e])
  }

  /** Records the grade in the course for the student stored under sid. */
  function PutGrade(st: Store, sid: string, cid: string, grade: string): Store
    requires sid in st.students && cid in st.courses
  {
    st.(courses := st.courses[cid := st.courses[cid].AddGrade(st.students[sid], grade)])
  }

  /** Gives the pair's enrollment the grade, then records it in the course. */
  function Regrade(st: Store, sid: string, cid: string, grade: string): Store
    requires (sid, cid) in st.enrollments && sid in st.students && cid in st.courses
  {
    PutGrade(st.(enrollments := st.enrollments[(sid, cid) := st.enrollments[(sid, cid)].SetGrade(grade)]),
             sid, cid, grade)
  }

  // ---------------------------------------------------------------------------
  // Loading the files: one change per record, in file order

  function LoadStudentRecords(st: Store, rows: Table): (st': Store)
    requires AllWidth(rows, 3)
    ensures st'.students.Keys == st.students.Keys + ById(rows).Keys
    ensures st'.courses == st.courses && st'.enrollments == st.enrollments
  {
    if rows == [] then st
    else
      var r := rows[|rows| - 1];
      assert ById(rows) == ById(rows[..|rows| - 1])[r[0] := r];
      PutStudent(LoadStudentRecords(st, rows[..|rows| - 1]), Student(r[0], r[1], r[2], {}))
  }

  function LoadCourseRecords(st: Store, rows: Table): (st': Store)
    requires AllWidth(rows, 3)
    ensures st'.courses.Keys == st.courses.Keys + ById(rows).Keys
    ensures st'.students == st.students && st'.enrollments == st.enrollments
  {
    if rows == [] then st
    else
      var r := rows[|rows| - 1];
      assert ById(rows) == ById(rows[..|rows| - 1])[r[0] := r];
      PutCourse(LoadCourseRecords(st, rows[..|rows| - 1]), Course(r[0], r[1], r[2], map[], map[]))
  }

  /** Every record has four fields and names a stored student and a stored course. */
  predicate Known(st: Store, rows: Table)
  {
    forall i :: 0 <= i < |rows| ==> |rows[i]| == 4 && rows[i][0] in st.students && rows[i][1] in st.courses
  }

  lemma KnownPrefix(st: Store, rows: Table, j: nat)
    requires Known(st, rows) && j <= |rows|
    ensures Known(st, rows[..j])
  {
    forall i | 0 <= i < j ensures |rows[..j][i]| == 4 && rows[..j][i][0] in st.students && rows[..j][i][1] in st.courses {
      assert rows[..j][i] == rows[i];
    }
  }

  /** Loading one enrollment record: the enrollment, linked both ways, and its
      grade recorded in the course when non-empty. */
  function LoadEnrollmentRecord(st: Store, r: Row): Store
    requires |r| == 4 && r[0] in st.students && r[1] in st.courses
  {
    var st' := PutEnrollment(st, Enrollment(r[0], r[1], r[2], Some(r[3])));
    if r[3] != "" then PutGrade(st', r[0], r[1], r[3]) else st'
  }

  function LoadEnrollmentRecords(st: Store, rows: Table): (st': Store)
    requires Known(st, rows)
    ensures st'.students.Keys == st.students.Keys && st'.courses.Keys == st.courses.Keys
  {
    if rows == [] then st
    else
      KnownPrefix(st, rows, |rows| - 1);
      LoadEnrollmentRecord(LoadEnrollmentRecords(st, rows[..|rows| - 1]), rows[|rows| - 1])
  }

  /** The files can be loaded: students and courses have three fields, and every
      enrollment has four and names a student and a course of those files. */
  predicate Loadable(studentsFile: Table, coursesFile: Table, enrollmentsFile: Table)
  {
    && AllWidth(DataRows(studentsFile), 3) && AllWidth(DataRows(coursesFile), 3)
    && forall i :: 0 <= i < |DataRows(enrollmentsFile)| ==>
         |DataRows(enrollmentsFile)[i]| == 4 &&
         DataRows(enrollmentsFile)[i][0] in ById(DataRows(studentsFile)) &&
         DataRows(enrollmentsFile)[i][1] in ById(DataRows(coursesFile))
  }

  /** The store once the students and then the courses are loaded, each file
      without its header row. */
  function Catalogued(studentsFile: Table, coursesFile: Table): Store
    requires AllWidth(DataRows(studentsFile), 3) && AllWidth(DataRows(coursesFile), 3)
  {
    LoadCourseRecords(LoadStudentRecords(Empty, DataRows(studentsFile)), DataRows(coursesFile))
  }

  /** Every enrollment record of loadable files names a student and a course
      that are loaded before the enrollments. */
  lemma CataloguedKnown(studentsFile: Table, coursesFile: Table, enrollmentsFile: Table)
    requires Loadable(studentsFile, coursesFile, enrollmentsFile)
    ensures Known(Catalogued(studentsFile, coursesFile), DataRows(enrollmentsFile))
  {
  }

  /** The store the program builds at start-up: students, then courses, then
      enrollments. */
  function Loaded(studentsFile: Table, coursesFile: Table, enrollmentsFile: Table): Store
    requires Loadable(studentsFile, coursesFile, enrollmentsFile)
  {
    CataloguedKnown(studentsFile, coursesFile, enrollmentsFile);
    LoadEnrollmentRecords(Catalogued(studentsFile, coursesFile), DataRows(enrollmentsFile))
  }

  // ---------------------------------------------------------------------------
  // The tables as the records that would be written for them

  /** The record written for a student. */
  function StudentRow(s: Student): Row
  {
    [s.id, s.name, s.email]
  }

  /** The record written for a course. */
  function CourseRow(c: Course): Row
  {
    [c.id, c.name, c.credit]
  }

  /** The record written for an enrollment; an absent grade is an empty field. */
  function EnrollmentRow(e: Enrollment): Row
  {
    [e.studentId, e.courseId, e.semester, Text(e.grade)]
  }

  function StudentRows(students: map<string, Student>): map<string, Row>
  {
    map k | k in students :: StudentRow(students[k])
  }

  function CourseRows(courses: map<string, Course>): map<string, Row>
  {
    map k | k in courses :: CourseRow(courses[k])
  }

  function EnrollmentRows(enrollments: map<(string, string), Enrollment>): map<(string, string), Row>
  {
    map p | p in enrollments :: EnrollmentRow(enrollments[p])
  }

  lemma StudentRowsUpdate(students: map<string, Student>, s: Student)
    ensures StudentRows(students[s.id := s]) == StudentRows(students)[s.id := StudentRow(s)]
  {
  }

  lemma CourseRowsUpdate(courses: map<string, Course>, c: Course)
    ensures CourseRows(courses[c.id := c]) == CourseRows(courses)[c.id := CourseRow(c)]
  {
  }

  /** Replacing a student by one with the same record leaves the records unchanged. */
  lemma StudentRowsKeep(students: map<string, Student>, k: string, s: Student)
    requires k in students && StudentRow(s) == StudentRow(students[k])
    ensures StudentRows(students[k := s]) == StudentRows(students)
  {
  }

  /** Replacing a course by one with the same record leaves the records unchanged. */
  lemma CourseRowsKeep(courses: map<string, Course>, k: string, c: Course)
    requires k in courses && CourseRow(c) == CourseRow(courses[k])
    ensures CourseRows(courses[k := c]) == CourseRows(courses)
  {
  }

  lemma EnrollmentRowsUpdate(enrollments: map<(string, string), Enrollment>, p: (string, string), e: Enrollment)
    ensures EnrollmentRows(enrollments[p := e]) == EnrollmentRows(enrollments)[p := EnrollmentRow(e)]
  {
  }

  /** Appending a student's record to a file that has its header row and
      reloads into the table keeps the two in step. */
  lemma StudentsAppend(students: map<string, Student>, t: Table, s: Student)
    requires t != [] && AllWidth(DataRows(t), 3) && ById(DataRows(t)) == StudentRows(students)
    ensures AllWidth(DataRows(t + [StudentRow(s)]), 3)
    ensures ById(DataRows(t + [StudentRow(s)])) == StudentRows(students[s.id := s])
  {
    var row := StudentRow(s);
    assert DataRows(t + [row]) == DataRows(t) + [row];
    ByIdSnoc(DataRows(t), row);
    StudentRowsUpdate(students, s);
  }

  /** Appending an enrollment's record to a file that has its header row and
      reloads into the table keeps the two in step; the record replaces any
      earlier enrollment of the pair. */
  lemma EnrollmentsAppend(enrollments: map<(string, string), Enrollment>, t: Table, e: Enrollment)
    requires t != [] && AllWidth(DataRows(t), 4) && ByPair(DataRows(t)) == EnrollmentRows(enrollments)
    ensures AllWidth(DataRows(t + [EnrollmentRow(e)]), 4)
    ensures ByPair(DataRows(t + [EnrollmentRow(e)])) == EnrollmentRows(enrollments[(e.studentId, e.courseId) := e])
  {
    var row := EnrollmentRow(e);
    assert DataRows(t + [row]) == DataRows(t) + [row];
    ByPairSnoc(DataRows(t), row);
    EnrollmentRowsUpdate(enrollments, (e.studentId, e.courseId), e);
  }

  // ---------------------------------------------------------------------------
  // Agreement of the tables and the indices

  /** The tables are keyed by id and every enrollment is of a stored student in
      a stored course, under their ids. */
  ghost predicate Keyed(st: Store)
  {
    && (forall k :: k in st.students ==> st.students[k].id == k)
    && (forall k :: k in st.courses ==> st.courses[k].id == k)
    && (forall p :: p in st.enrollments ==>
          && p.0 in st.students && p.1 in st.courses
          && st.enrollments[p].studentId == p.0 && st.enrollments[p].courseId == p.1)
  }

  /** A course's roster lists exactly the students enrolled in it, each under
      its own id, and the course holds grades only for students on its roster. */
  ghost predicate Rostered(st: Store)
  {
    && (forall k, s :: k in st.courses ==> (s in st.courses[k].students <==> (s, k) in st.enrollments))
    && (forall k, s :: k in st.courses && s in st.courses[k].students ==> st.courses[k].students[s].id == s)
    && (forall k :: k in st.courses ==> st.courses[k].grades.Keys <= st.courses[k].students.Keys)
  }

  /** A student's index lists only courses it is enrolled in. */
  ghost predicate Listed(st: Store)
  {
    forall k, c :: k in st.students && c in st.students[k].courses ==> (k, c) in st.enrollments
  }

  ghost predicate Consistent(st: Store)
  {
    Keyed(st) && Rostered(st) && Listed(st)
  }

  /** Each student's index lists all of its enrollments. */
  ghost predicate Indexed(st: Store)
  {
    forall k, c :: k in st.students ==> (c in st.students[k].courses <==> (k, c) in st.enrollments)
  }

  /** Each roster entry has the name and email of the student stored under its id. */
  ghost predicate Named(st: Store)
  {
    forall k, s :: k in st.courses && s in st.courses[k].students ==>
      s in st.students && st.courses[k].students[s].name == st.students[s].name &&
      st.courses[k].students[s].email == st.students[s].email
  }

  /** What loading establishes beyond consistency. A new student that displaces
      one of the same id has an empty index, so this no longer holds for that id. */
  ghost predicate Exact(st: Store)
  {
    Indexed(st) && Named(st)
  }

  /** No enrollment and every index empty: the store before enrollments load. */
  ghost predicate Blank(st: Store)
  {
    && st.enrollments == map[]
    && (forall k :: k in st.students ==> st.students[k].id == k && st.students[k].courses == {})
    && (forall k :: k in st.courses ==>
          st.courses[k].id == k && st.courses[k].students == map[] && st.courses[k].grades == map[])
  }

  /** Putting a student with an empty index under its id keeps the tables
      consistent, even when it displaces a student of the same id. */
  lemma PutStudentConsistent(st: Store, s: Student)
    requires Consistent(st) && s.courses == {}
    ensures Consistent(PutStudent(st, s))
  {
    var st' := PutStudent(st, s);
    assert st'.courses == st.courses && st'.enrollments == st.enrollments;
    assert forall k :: k in st'.students ==> k == s.id || (k in st.students && st'.students[k] == st.students[k]);
  }

  /** Putting a student with an empty index under a new id keeps the indices exact. */
  lemma PutStudentExact(st: Store, s: Student)
    requires Consistent(st) && Exact(st) && s.courses == {} && s.id !in st.students
    ensures Exact(PutStudent(st, s))
  {
    var st' := PutStudent(st, s);
    assert st'.courses == st.courses && st'.enrollments == st.enrollments;
    assert forall k :: k in st.students ==> k in st'.students && st'.students[k] == st.students[k];
    forall k, c | k in st'.students
      ensures c in st'.students[k].courses <==> (k, c) in st'.enrollments
    {
      if k == s.id {
        assert (k, c) !in st.enrollments;
      }
    }
  }

  /** Storing an enrollment changes the student and the course of the
      enrollment and the entry of its pair, and nothing else. */
  lemma PutEnrollmentFrame(st: Store, e: Enrollment)
    requires e.studentId in st.students && e.courseId in st.courses
    ensures var st' := PutEnrollment(st, e);
      && st'.students.Keys == st.students.Keys && st'.courses.Keys == st.courses.Keys
      && st'.enrollments.Keys == st.enrollments.Keys + {(e.studentId, e.courseId)}
      && st'.enrollments[(e.studentId, e.courseId)] == e
      && (forall k :: k in st.students && k != e.studentId ==> st'.students[k] == st.students[k])
      && (forall k :: k in st.courses && k != e.courseId ==> st'.courses[k] == st.courses[k])
      && (forall p :: p in st.enrollments && p != (e.studentId, e.courseId) ==> st'.enrollments[p] == st.enrollments[p])
      && st'.students[e.studentId] == st.students[e.studentId].AddCourse(st.courses[e.courseId])
      && st'.courses[e.courseId] == st.courses[e.courseId].AddStudent(st'.students[e.studentId])
  {
  }

  /** Storing an enrollment keeps the tables keyed by id. */
  lemma PutEnrollmentKeyed(st: Store, e: Enrollment)
    requires Keyed(st) && e.studentId in st.students && e.courseId in st.courses
    ensures Keyed(PutEnrollment(st, e))
  {
    var st' := PutEnrollment(st, e);
    PutEnrollmentFrame(st, e);
    assert forall k :: k in st'.students ==> st'.students[k].id == st.students[k].id;
    assert forall k :: k in st'.courses ==> st'.courses[k].id == st.courses[k].id;
  }

  /** Storing an enrollment keeps each roster equal to the course's enrollments. */
  lemma PutEnrollmentRostered(st: Store, e: Enrollment)
    requires Keyed(st) && Rostered(st) && e.studentId in st.students && e.courseId in st.courses
    ensures Rostered(PutEnrollment(st, e))
  {
    var sid, cid := e.studentId, e.courseId;
    var st' := PutEnrollment(st, e);
    PutEnrollmentFrame(st, e);
    forall k, s | k in st'.courses
      ensures s in st'.courses[k].students <==> (s, k) in st'.enrollments
    {
      if k == cid && s != sid {
        assert s in st'.courses[k].students <==> s in st.courses[k].students;
      }
    }
  }

  /** Storing an enrollment keeps each student's index within its enrollments. */
  lemma PutEnrollmentListed(st: Store, e: Enrollment)
    requires Keyed(st) && Listed(st) && e.studentId in st.students && e.courseId in st.courses
    ensures Listed(PutEnrollment(st, e))
  {
    var sid, cid := e.studentId, e.courseId;
    var st' := PutEnrollment(st, e);
    PutEnrollmentFrame(st, e);
    forall k, c | k in st'.students && c in st'.students[k].courses
      ensures (k, c) in st'.enrollments
    {
      if k == sid && c != cid {
        assert c in st.students[k].courses;
      }
    }
  }

  /** Storing an enrollment keeps the tables consistent. */
  lemma PutEnrollmentConsistent(st: Store, e: Enrollment)
    requires Consistent(st) && e.studentId in st.students && e.courseId in st.courses
    ensures Consistent(PutEnrollment(st, e))
  {
    PutEnrollmentKeyed(st, e);
    PutEnrollmentRostered(st, e);
    PutEnrollmentListed(st, e);
  }

  /** Storing an enrollment keeps each student's index equal to its enrollments. */
  lemma PutEnrollmentIndexed(st: Store, e: Enrollment)
    requires Keyed(st) && Indexed(st) && e.studentId in st.students && e.courseId in st.courses
    ensures Indexed(PutEnrollment(st, e))
  {
    var sid, cid := e.studentId, e.courseId;
    var st' := PutEnrollment(st, e);
    PutEnrollmentFrame(st, e);
    forall k, c | k in st'.students
      ensures c in st'.students[k].courses <==> (k, c) in st'.enrollments
    {
      if k == sid && c != cid {
        assert c in st'.students[k].courses <==> c in st.students[k].courses;
      }
    }
  }

  /** Storing an enrollment keeps the roster entries named as the students. */
  lemma PutEnrollmentNamed(st: Store, e: Enrollment)
    requires Keyed(st) && Named(st) && e.studentId in st.students && e.courseId in st.courses
    ensures Named(PutEnrollment(st, e))
  {
    var sid, cid := e.studentId, e.courseId;
    var st' := PutEnrollment(st, e);
    PutEnrollmentFrame(st, e);
    forall k, s | k in st'.courses && s in st'.courses[k].students
      ensures s in st'.students && st'.courses[k].students[s].name == st'.students[s].name
      ensures st'.courses[k].students[s].email == st'.students[s].email
    {
      if !(k == cid && s == sid) {
        assert s in st.courses[k].students && st'.courses[k].students[s] == st.courses[k].students[s];
      }
    }
  }

  /** Storing an enrollment keeps the indices exact. */
  lemma PutEnrollmentExact(st: Store, e: Enrollment)
    requires Keyed(st) && Exact(st) && e.studentId in st.students && e.courseId in st.courses
    ensures Exact(PutEnrollment(st, e))
  {
    PutEnrollmentIndexed(st, e);
    PutEnrollmentNamed(st, e);
  }

  /** Recording a grade for an enrolled student keeps the tables consistent. */
  lemma PutGradeConsistent(st: Store, sid: string, cid: string, grade: string)
    requires Consistent(st) && (sid, cid) in st.enrollments
    ensures sid in st.students && cid in st.courses
    ensures Consistent(PutGrade(st, sid, cid, grade))
  {
    var st' := PutGrade(st, sid, cid, grade);
    assert sid in st.courses[cid].students;
    assert st'.students == st.students && st'.enrollments == st.enrollments && st'.courses.Keys == st.courses.Keys;
    assert forall k :: k in st.courses ==>
      st'.courses[k].students == st.courses[k].students && st'.courses[k].id == st.courses[k].id;
    assert forall k :: k in st.courses ==> st'.courses[k].grades.Keys <= st'.courses[k].students.Keys;
  }

  /** Recording a grade keeps the indices exact. */
  lemma PutGradeExact(st: Store, sid: string, cid: string, grade: string)
    requires Exact(st) && sid in st.students && cid in st.courses
    ensures Exact(PutGrade(st, sid, cid, grade))
  {
    var st' := PutGrade(st, sid, cid, grade);
    assert st'.students == st.students && st'.enrollments == st.enrollments && st'.courses.Keys == st.courses.Keys;
    assert forall k :: k in st.courses ==> st'.courses[k].students == st.courses[k].students;
  }

  /** Giving an enrollment a grade keeps the tables consistent and the indices exact. */
  lemma SetGradeConsistent(st: Store, sid: string, cid: string, grade: string)
    requires Consistent(st) && (sid, cid) in st.enrollments
    ensures var st' := st.(enrollments := st.enrollments[(sid, cid) := st.enrollments[(sid, cid)].SetGrade(grade)]);
      Consistent(st') && (Exact(st) ==> Exact(st'))
  {
    var st' := st.(enrollments := st.enrollments[(sid, cid) := st.enrollments[(sid, cid)].SetGrade(grade)]);
    assert st'.students == st.students && st'.courses == st.courses && st'.enrollments.Keys == st.enrollments.Keys;
    assert forall p :: p in st.enrollments ==>
      st'.enrollments[p].studentId == st.enrollments[p].studentId && st'.enrollments[p].courseId == st.enrollments[p].courseId;
  }

  /** Regrading an enrolled pair keeps the tables consistent and the indices exact. */
  lemma RegradeConsistent(st: Store, sid: string, cid: string, grade: string)
    requires Consistent(st) && (sid, cid) in st.enrollments
    ensures sid in st.students && cid in st.courses
    ensures Consistent(Regrade(st, sid, cid, grade))
    ensures Exact(st) ==> Exact(Regrade(st, sid, cid, grade))
  {
    var mid := st.(enrollments := st.enrollments[(sid, cid) := st.enrollments[(sid, cid)].SetGrade(grade)]);
    SetGradeConsistent(st, sid, cid, grade);
    PutGradeConsistent(mid, sid, cid, grade);
    if Exact(st) {
      PutGradeExact(mid, sid, cid, grade);
    }
  }

  /** Loading one enrollment record keeps the tables consistent and the indices exact. */
  lemma {:induction false} LoadEnrollmentRecordConsistent(st: Store, r: Row)
    requires Consistent(st) && |r| == 4 && r[0] in st.students && r[1] in st.courses
    ensures Consistent(LoadEnrollmentRecord(st, r))
    ensures Exact(st) ==> Exact(LoadEnrollmentRecord(st, r))
  {
    var e := Enrollment(r[0], r[1], r[2], Some(r[3]));
    PutEnrollmentConsistent(st, e);
    if Exact(st) {
      PutEnrollmentExact(st, e);
    }
    if r[3] != "" {
      PutGradeConsistent(PutEnrollment(st, e), r[0], r[1], r[3]);
      if Exact(st) {
        PutGradeExact(PutEnrollment(st, e), r[0], r[1], r[3]);
      }
    }
  }

  /** A blank store is consistent, and its indices are exact. */
  lemma BlankConsistent(st: Store)
    requires Blank(st)
    ensures Consistent(st) && Exact(st)
  {
  }

  // ---------------------------------------------------------------------------
  // What loading the files produces

  /** Loading student records into a blank store keeps it blank, and the student
      table then holds, for each id, the last record with that id. */
  lemma {:induction false} LoadStudentRecordsBlank(st: Store, rows: Table)
    requires Blank(st) && AllWidth(rows, 3)
    ensures Blank(LoadStudentRecords(st, rows))
    ensures StudentRows(LoadStudentRecords(st, rows).students) == StudentRows(st.students) + ById(rows)
  {
    if rows != [] {
      var front, r := rows[..|rows| - 1], rows[|rows| - 1];
      LoadStudentRecordsBlank(st, front);
      var s := Student(r[0], r[1], r[2], {});
      StudentRowsUpdate(LoadStudentRecords(st, front).students, s);
      ByIdSnoc(front, r);
      assert StudentRow(s) == r;
      UnionUpdate(StudentRows(st.students), ById(front), r[0], r);
    }
  }

  /** Loading course records into a blank store keeps it blank, and the course
      table then holds, for each id, the last record with that id. */
  lemma {:induction false} LoadCourseRecordsBlank(st: Store, rows: Table)
    requires Blank(st) && AllWidth(rows, 3)
    ensures Blank(LoadCourseRecords(st, rows))
    ensures CourseRows(LoadCourseRecords(st, rows).courses) == CourseRows(st.courses) + ById(rows)
  {
    if rows != [] {
      var front, r := rows[..|rows| - 1], rows[|rows| - 1];
      LoadCourseRecordsBlank(st, front);
      var c := Course(r[0], r[1], r[2], map[], map[]);
      CourseRowsUpdate(LoadCourseRecords(st, front).courses, c);
      ByIdSnoc(front, r);
      assert CourseRow(c) == r;
      UnionUpdate(CourseRows(st.courses), ById(front), r[0], r);
    }
  }

  /** Loading enrollment records keeps the tables consistent and the indices exact. */
  lemma {:induction false} LoadEnrollmentRecordsConsistent(st: Store, rows: Table)
    requires Known(st, rows) && Consistent(st)
    ensures Consistent(LoadEnrollmentRecords(st, rows))
    ensures Exact(st) ==> Exact(LoadEnrollmentRecords(st, rows))
  {
    if rows != [] {
      var front := rows[..|rows| - 1];
      LoadEnrollmentRecordsConsistent(st, front);
      LoadEnrollmentRecordConsistent(LoadEnrollmentRecords(st, front), rows[|rows| - 1]);
    }
  }

  /** Loading one enrollment record puts the record under its pair in the
      enrollment table and changes no student's or course's record. */
  lemma LoadEnrollmentRecordRows(st: Store, r: Row)
    requires |r| == 4 && r[0] in st.students && r[1] in st.courses
    ensures EnrollmentRows(LoadEnrollmentRecord(st, r).enrollments) == EnrollmentRows(st.enrollments)[(r[0], r[1]) := r]
    ensures StudentRows(LoadEnrollmentRecord(st, r).students) == StudentRows(st.students)
    ensures CourseRows(LoadEnrollmentRecord(st, r).courses) == CourseRows(st.courses)
  {
    var e := Enrollment(r[0], r[1], r[2], Some(r[3]));
    var st1 := PutEnrollment(st, e);
    PutEnrollmentFrame(st, e);
    EnrollmentRowsUpdate(st.enrollments, (r[0], r[1]), e);
    assert EnrollmentRow(e) == r;
    StudentRowsKeep(st.students, r[0], st1.students[r[0]]);
    assert st1.students == st.students[r[0] := st1.students[r[0]]];
    CourseRowsKeep(st.courses, r[1], st1.courses[r[1]]);
    assert st1.courses == st.courses[r[1] := st1.courses[r[1]]];
    if r[3] != "" {
      var st2 := PutGrade(st1, r[0], r[1], r[3]);
      CourseRowsKeep(st1.courses, r[1], st2.courses[r[1]]);
    }
  }

  /** Loading enrollment records: the enrollment table then holds, for each
      pair, the last record of that pair, and no student's or course's record
      changes. */
  lemma {:induction false} LoadEnrollmentRecordsRows(st: Store, rows: Table)
    requires Known(st, rows)
    ensures EnrollmentRows(LoadEnrollmentRecords(st, rows).enrollments) == EnrollmentRows(st.enrollments) + ByPair(rows)
    ensures StudentRows(LoadEnrollmentRecords(st, rows).students) == StudentRows(st.students)
    ensures CourseRows(LoadEnrollmentRecords(st, rows).courses) == CourseRows(st.courses)
  {
    if rows != [] {
      var front, r := rows[..|rows| - 1], rows[|rows| - 1];
      LoadEnrollmentRecordsRows(st, front);
      LoadEnrollmentRecordRows(LoadEnrollmentRecords(st, front), r);
      ByPairSnoc(front, r);
      UnionUpdate(EnrollmentRows(st.enrollments), ByPair(front), (r[0], r[1]), r);
    }
  }

  /** Loading one enrollment record with a non-empty grade records it in the
      record's course; no other grade changes. */
  lemma LoadEnrollmentRecordGrades(st: Store, r: Row)
    requires Keyed(st) && |r| == 4 && r[0] in st.students && r[1] in st.courses
    ensures forall k :: k in st.courses ==>
      LoadEnrollmentRecord(st, r).courses[k].grades ==
        (if r[3] != "" && k == r[1] then st.courses[k].grades[r[0] := r[3]] else st.courses[k].grades)
  {
    var st1 := PutEnrollment(st, Enrollment(r[0], r[1], r[2], Some(r[3])));
    PutEnrollmentFrame(st, Enrollment(r[0], r[1], r[2], Some(r[3])));
    assert forall k :: k in st.courses ==> st1.courses[k].grades == st.courses[k].grades;
    assert st1.students[r[0]].id == r[0];
  }

  /** Loading enrollment records adds to each course the last non-empty grade of
      each of its students. */
  lemma {:induction false} LoadEnrollmentRecordsGrades(st: Store, rows: Table)
    requires Known(st, rows) && Consistent(st)
    ensures forall k :: k in st.courses ==>
      LoadEnrollmentRecords(st, rows).courses[k].grades == st.courses[k].grades + CourseGrades(rows, k)
  {
    if rows != [] {
      var front, r := rows[..|rows| - 1], rows[|rows| - 1];
      LoadEnrollmentRecordsGrades(st, front);
      LoadEnrollmentRecordsConsistent(st, front);
      var mid := LoadEnrollmentRecords(st, front);
      LoadEnrollmentRecordGrades(mid, r);
      forall k | k in st.courses
        ensures LoadEnrollmentRecords(st, rows).courses[k].grades == st.courses[k].grades + CourseGrades(rows, k)
      {
        CourseGradesLast(rows, k);
        if r[3] != "" && k == r[1] {
          UnionUpdate(st.courses[k].grades, CourseGrades(front, k), r[0], r[3]);
        }
      }
    }
  }

  /** The store once students and courses are loaded: blank, with each table
      holding, for each id, the last record of its file with that id. */
  lemma {:induction false} CataloguedBlank(studentsFile: Table, coursesFile: Table)
    requires AllWidth(DataRows(studentsFile), 3) && AllWidth(DataRows(coursesFile), 3)
    ensures var st := Catalogued(studentsFile, coursesFile);
      && Blank(st)
      && StudentRows(st.students) == ById(DataRows(studentsFile))
      && CourseRows(st.courses) == ById(DataRows(coursesFile))
  {
    var S, C := DataRows(studentsFile), DataRows(coursesFile);
    var st1 := LoadStudentRecords(Empty, S);
    LoadStudentRecordsBlank(Empty, S);
    LoadCourseRecordsBlank(st1, C);
    assert StudentRows(map[]) == map[] && CourseRows(map[]) == map[];
    EmptyUnion(ById(S));
    EmptyUnion(ById(C));
  }

  /** The store built at start-up is consistent and its indices are exact. */
  lemma LoadedConsistent(studentsFile: Table, coursesFile: Table, enrollmentsFile: Table)
    requires Loadable(studentsFile, coursesFile, enrollmentsFile)
    ensures Consistent(Loaded(studentsFile, coursesFile, enrollmentsFile))
    ensures Exact(Loaded(studentsFile, coursesFile, enrollmentsFile))
  {
    var st := Catalogued(studentsFile, coursesFile);
    CataloguedKnown(studentsFile, coursesFile, enrollmentsFile);
    CataloguedBlank(studentsFile, coursesFile);
    BlankConsistent(st);
    LoadEnrollmentRecordsConsistent(st, DataRows(enrollmentsFile));
  }

  /** Each table of the store built at start-up reloads as its file. */
  lemma LoadedMirrors(studentsFile: Table, coursesFile: Table, enrollmentsFile: Table)
    requires Loadable(studentsFile, coursesFile, enrollmentsFile)
    ensures StudentRows(Loaded(studentsFile, coursesFile, enrollmentsFile).students) == ById(DataRows(studentsFile))
    ensures CourseRows(Loaded(studentsFile, coursesFile, enrollmentsFile).courses) == ById(DataRows(coursesFile))
    ensures EnrollmentRows(Loaded(studentsFile, coursesFile, enrollmentsFile).enrollments) ==
      ByPair(DataRows(enrollmentsFile))
  {
    var st := Catalogued(studentsFile, coursesFile);
    CataloguedKnown(studentsFile, coursesFile, enrollmentsFile);
    CataloguedBlank(studentsFile, coursesFile);
    LoadEnrollmentRecordsRows(st, DataRows(enrollmentsFile));
    assert EnrollmentRows(st.enrollments) == map[];
    EmptyUnion(ByPair(DataRows(enrollmentsFile)));
  }

  /** Files whose records have distinct ids load into exactly one student per
      student record and one course per course record; an enrollments file
      whose records have distinct pairs loads into one enrollment per record. */
  lemma LoadedSizes(studentsFile: Table, coursesFile: Table, enrollmentsFile: Table)
    requires Loadable(studentsFile, coursesFile, enrollmentsFile)
    requires forall i, j :: 0 <= i < j < |DataRows(studentsFile)| ==>
      Col(DataRows(studentsFile)[i], 0) != Col(DataRows(studentsFile)[j], 0)
    requires forall i, j :: 0 <= i < j < |DataRows(coursesFile)| ==>
      Col(DataRows(coursesFile)[i], 0) != Col(DataRows(coursesFile)[j], 0)
    ensures |Loaded(studentsFile, coursesFile, enrollmentsFile).students| == |DataRows(studentsFile)|
    ensures |Loaded(studentsFile, coursesFile, enrollmentsFile).courses| == |DataRows(coursesFile)|
    ensures (forall i, j :: 0 <= i < j < |DataRows(enrollmentsFile)| ==>
               PairKey(DataRows(enrollmentsFile)[i]) != PairKey(DataRows(enrollmentsFile)[j])) ==>
      |Loaded(studentsFile, coursesFile, enrollmentsFile).enrollments| == |DataRows(enrollmentsFile)|
  {
    var st := Loaded(studentsFile, coursesFile, enrollmentsFile);
    LoadedMirrors(studentsFile, coursesFile, enrollmentsFile);
    ByIdSize(DataRows(studentsFile));
    ByIdSize(DataRows(coursesFile));
    assert StudentRows(st.students).Keys == st.students.Keys;
    assert CourseRows(st.courses).Keys == st.courses.Keys;
    assert EnrollmentRows(st.enrollments).Keys == st.enrollments.Keys;
    if forall i, j :: 0 <= i < j < |DataRows(enrollmentsFile)| ==>
         PairKey(DataRows(enrollmentsFile)[i]) != PairKey(DataRows(enrollmentsFile)[j]) {
      ByPairSize(DataRows(enrollmentsFile));
    }
  }

  /** Each course of the store built at start-up holds, for each student, the
      last non-empty grade among the records of the pair. */
  lemma LoadedGrades(studentsFile: Table, coursesFile: Table, enrollmentsFile: Table)
    requires Loadable(studentsFile, coursesFile, enrollmentsFile)
    ensures forall k :: k in Loaded(studentsFile, coursesFile, enrollmentsFile).courses ==>
      Loaded(studentsFile, coursesFile, enrollmentsFile).courses[k].grades == CourseGrades(DataRows(enrollmentsFile), k)
  {
    var st := Catalogued(studentsFile, coursesFile);
    CataloguedKnown(studentsFile, coursesFile, enrollmentsFile);
    CataloguedBlank(studentsFile, coursesFile);
    BlankConsistent(st);
    LoadEnrollmentRecordsGrades(st, DataRows(enrollmentsFile));
    forall k | k in st.courses
      ensures st.courses[k].grades + CourseGrades(DataRows(enrollmentsFile), k) == CourseGrades(DataRows(enrollmentsFile), k)
    {
      EmptyUnion(CourseGrades(DataRows(enrollmentsFile), k));
    }
  }

  /** When the enrollments file reloads as the table and the graded pair's
      enrollment is of the graded semester, the rewrite matches a record and the
      rewritten file reloads as the regraded table. */
  lemma RegradeMirror(st: Store, rows: Table, sid: string, cid: string, semester: string, grade: string)
    requires AllWidth(rows, 4) && ByPair(rows) == EnrollmentRows(st.enrollments)
    requires (sid, cid) in st.enrollments && sid in st.students && cid in st.courses
    requires st.enrollments[(sid, cid)].semester == semester
    ensures AnyMatch(rows, sid, cid, semester)
    ensures ByPair(Rewritten(rows, sid, cid, semester, grade)) == EnrollmentRows(Regrade(st, sid, cid, grade).enrollments)
  {
    var e := st.enrollments[(sid, cid)];
    var m := ByPair(rows);
    ByPairRewritten(rows, sid, cid, semester, grade);
    RegradeEntriesAt(m, sid, cid, semester, grade);
    ByPairFromRow(rows, (sid, cid));
    assert m[(sid, cid)] == EnrollmentRow(e);
    assert m[(sid, cid)][..3] + [grade] == EnrollmentRow(e.SetGrade(grade));
    assert Regrade(st, sid, cid, grade).enrollments == st.enrollments[(sid, cid) := e.SetGrade(grade)];
    EnrollmentRowsUpdate(st.enrollments, (sid, cid), e.SetGrade(grade));
  }
}

=== FILE: rows.dfy ===
/** The three backing files of the school store, seen as rows of fields, and
    what the store computes from them: how many records a file holds, the
    decimal id of a new student, the table that loading a file produces, and
    the full rewrite of the enrollments file when a grade is recorded. */
module CsvRows {

  datatype Option<T> = None | Some(value: T)

  /** One line of a file, already split into its comma-separated fields. */
  type Row = seq<string>

  /** A whole file: its first row is the header, the rest are records. */
  type Table = seq<Row>

  /** The header written at the top of the enrollments file on every rewrite. */
  const EnrollmentHeader: Row := ["student_id", "course_id", "semester", "grade"]

  /** The rows after the first: the loaders and the dictionary reader both
      take the first row as the header. */
  function DataRows(t: Table): (d: Table)
    ensures |d| == if t == [] then 0 else |t| - 1
    ensures forall i :: 0 <= i < |d| ==> d[i] == t[i + 1]
  {
    if t == [] then [] else t[1..]
  }

  predicate AllWidth(rows: Table, n: nat)
  {
    forall i :: 0 <= i < |rows| ==> |rows[i]| == n
  }

  /** An enrollments file as the program itself writes it: the standard header
      followed by four-field records. */
  predicate StandardEnrollmentsFile(t: Table)
  {
    t != [] && t[0] == EnrollmentHeader && AllWidth(t[1..], 4)
  }

  predicate NoBlank(rows: Table)
  {
    forall i :: 0 <= i < |rows| ==> rows[i] != []
  }

  /** The number of records the dictionary reader yields: blank lines are skipped. */
  function RecordCount(rows: Table): (n: nat)
    ensures n <= |rows|
    ensures n == |rows| <==> NoBlank(rows)
  {
    if rows == [] then 0
    else
      assert NoBlank(rows) <==> rows[0] != [] && NoBlank(rows[1..]) by {
        if rows[0] != [] && NoBlank(rows[1..]) {
          forall i | 0 <= i < |rows| ensures rows[i] != [] {
            if i > 0 { assert rows[i] == rows[1..][i - 1]; }
          }
        }
      }
      (if rows[0] == [] then 0 else 1) + RecordCount(rows[1..])
  }

  /** Appending one non-blank row adds exactly one record. */
  lemma {:induction false} RecordCountAppend(rows: Table, r: Row)
    ensures RecordCount(rows + [r]) == RecordCount(rows) + (if r == [] then 0 else 1)
  {
    if rows == [] {
      assert [] + [r] == [r];
      assert [r][1..] == [];
    } else {
      assert (rows + [r])[0] == rows[0];
      assert (rows + [r])[1..] == rows[1..] + [r];
      RecordCountAppend(rows[1..], r);
    }
  }

  // ---------------------------------------------------------------------------
  // Decimal text of a natural number (Python's str on a non-negative int)

  predicate IsDigits(s: string)
  {
    forall i :: 0 <= i < |s| ==> '0' <= s[i] <= '9'
  }

  function DigitChar(d: nat): (c: char)
    requires d < 10
    ensures '0' <= c <= '9' && c as int - '0' as int == d
  {
    (48 + d) as char
  }

  /** The decimal representation without leading zeros. */
  function DecimalString(n: nat): (s: string)
    ensures |s| >= 1 && IsDigits(s)
    ensures s[0] == '0' ==> n == 0
    decreases n
  {
    if n < 10 then [DigitChar(n)] else DecimalString(n / 10) + [DigitChar(n % 10)]
  }

  /** Reading a string of digits back as a number. */
  function ParseDecimal(s: string): nat
    requires IsDigits(s)
  {
    if s == [] then 0
    else 10 * ParseDecimal(s[..|s| - 1]) + (s[|s| - 1] as int - '0' as int)
  }

  lemma {:induction false} ParseDecimalString(n: nat)
    ensures ParseDecimal(DecimalString(n)) == n
    decreases n
  {
    if n >= 10 {
      var s := DecimalString(n);
      assert s[..|s| - 1] == DecimalString(n / 10);
      ParseDecimalString(n / 10);
    }
  }

  /** Distinct numbers get distinct ids. */
  lemma DecimalStringInjective(m: nat, n: nat)
    requires m != n
    ensures DecimalString(m) != DecimalString(n)
  {
    ParseDecimalString(m);
    ParseDecimalString(n);
  }

  /** A field of a record as the dictionary reader gives it: missing fields read as None. */
  function Field(r: Row, k: nat): (f: Option<string>)
    ensures f.Some? <==> k < |r|
  {
    if k < |r| then Some(r[k]) else None
  }

  /** How the dictionary writer renders a field: None becomes the empty string. */
  function Text(f: Option<string>): string
  {
    if f.Some? then f.value else ""
  }

  // ---------------------------------------------------------------------------
  // Tables built by loading: one entry per key, the last row with a key wins

  /** A field of a record as unpacked, empty when the record is too short. */
  function Col(r: Row, k: nat): string
  {
    Text(Field(r, k))
  }

  /** Students and courses keyed by their first field. */
  function ById(rows: Table): (m: map<string, Row>)
    ensures forall k :: k in m ==> Col(m[k], 0) == k
  {
    if rows == [] then map[]
    else
      var r := rows[|rows| - 1];
      ById(rows[..|rows| - 1])[Col(r, 0) := r]
  }

  /** A key is present exactly when some row carries it, and its entry is the
      last such row. */
  lemma {:induction false} ByIdLastRow(rows: Table, k: string)
    ensures k in ById(rows) <==> exists i :: 0 <= i < |rows| && Col(rows[i], 0) == k
    ensures k in ById(rows) ==>
      exists i :: 0 <= i < |rows| && Col(rows[i], 0) == k && ById(rows)[k] == rows[i] &&
        forall j :: i < j < |rows| ==> Col(rows[j], 0) != k
  {
    if rows != [] {
      var front := rows[..|rows| - 1];
      ByIdLastRow(front, k);
      if k !in ById(rows) {
        forall i | 0 <= i < |rows| ensures Col(rows[i], 0) != k {
          if i < |rows| - 1 { assert rows[i] == front[i]; }
        }
      } else if Col(rows[|rows| - 1], 0) != k {
        var i :| 0 <= i < |front| && Col(front[i], 0) == k && ById(front)[k] == front[i] &&
          forall j :: i < j < |front| ==> Col(front[j], 0) != k;
        assert rows[i] == front[i];
        forall j | i < j < |rows| ensures Col(rows[j], 0) != k {
          if j < |rows| - 1 { assert rows[j] == front[j]; }
        }
      }
    }
  }

  /** A file whose records have distinct ids loads into exactly that many entries. */
  lemma {:induction false} ByIdSize(rows: Table)
    requires forall i, j :: 0 <= i < j < |rows| ==> Col(rows[i], 0) != Col(rows[j], 0)
    ensures |ById(rows)| == |rows|
  {
    if rows != [] {
      var front := rows[..|rows| - 1];
      var r := rows[|rows| - 1];
      ByIdSize(front);
      forall i | 0 <= i < |front| ensures Col(front[i], 0) != Col(r, 0) {
        assert rows[i] == front[i];
      }
      ByIdLastRow(front, Col(r, 0));
      assert ById(rows).Keys == ById(front).Keys + {Col(r, 0)};
    }
  }

  /** The (student id, course id) key of an enrollment record; a missing field
      reads as empty. */
  function PairKey(r: Row): (string, string)
  {
    (Col(r, 0), Col(r, 1))
  }

  /** Enrollments keyed by (student id, course id): the semester is not part of the key. */
  function ByPair(rows: Table): (m: map<(string, string), Row>)
    ensures forall p :: p in m ==> PairKey(m[p]) == p
  {
    if rows == [] then map[]
    else
      var r := rows[|rows| - 1];
      ByPair(rows[..|rows| - 1])[PairKey(r) := r]
  }

  /** A file whose records have distinct (student id, course id) pairs loads
      into exactly one enrollment per record. */
  lemma {:induction false} ByPairSize(rows: Table)
    requires forall i, j :: 0 <= i < j < |rows| ==> PairKey(rows[i]) != PairKey(rows[j])
    ensures |ByPair(rows)| == |rows|
  {
    if rows != [] {
      var front := rows[..|rows| - 1];
      var r := rows[|rows| - 1];
      ByPairSize(front);
      forall i | 0 <= i < |front| ensures PairKey(front[i]) != PairKey(r) {
        assert rows[i] == front[i];
      }
      if PairKey(r) in ByPair(front) {
        ByPairFromRow(front, PairKey(r));
        assert false;
      }
      assert ByPair(rows).Keys == ByPair(front).Keys + {PairKey(r)};
    }
  }

  /** Updating the right operand of a map union updates the union. */
  lemma UnionUpdate<K, V>(a: map<K, V>, b: map<K, V>, k: K, v: V)
    ensures (a + b)[k := v] == a + b[k := v]
  {
  }

  lemma EmptyUnion<K, V>(b: map<K, V>)
    ensures map[] + b == b
  {
  }

  /** Appending a record to a file updates the id table at that record's id. */
  lemma ByIdSnoc(rows: Table, r: Row)
    ensures ById(rows + [r]) == ById(rows)[Col(r, 0) := r]
  {
    assert (rows + [r])[..|rows|] == rows;
  }

  /** Appending a record to a file updates the pair table at that record's pair. */
  lemma ByPairSnoc(rows: Table, r: Row)
    ensures ByPair(rows + [r]) == ByPair(rows)[PairKey(r) := r]
  {
    assert (rows + [r])[..|rows|] == rows;
  }

  /** The grades that loading records in one course's index: for each student,
      the last non-empty grade among the records of the pair. */
  function CourseGrades(rows: Table, cid: string): map<string, string>
  {
    if rows == [] then map[]
    else
      var r := rows[|rows| - 1];
      var m := CourseGrades(rows[..|rows| - 1], cid);
      if Col(r, 3) != "" && Col(r, 1) == cid then m[Col(r, 0) := Col(r, 3)] else m
  }

  /** Loading never records an empty grade, and only for pairs the file enrolls. */
  lemma {:induction false} CourseGradesSound(rows: Table, cid: string, sid: string)
    requires sid in CourseGrades(rows, cid)
    ensures CourseGrades(rows, cid)[sid] != ""
    ensures (sid, cid) in ByPair(rows)
  {
    var r := rows[|rows| - 1];
    ByPairSnoc(rows[..|rows| - 1], r);
    assert rows[..|rows| - 1] + [r] == rows;
    if !(Col(r, 3) != "" && Col(r, 1) == cid && Col(r, 0) == sid) {
      CourseGradesSound(rows[..|rows| - 1], cid, sid);
    }
  }

  /** The last of the enrollment records: its grade, when non-empty, replaces
      the student's grade in its course. */
  lemma CourseGradesLast(rows: Table, cid: string)
    requires rows != [] && |rows[|rows| - 1]| == 4
    ensures var r := rows[|rows| - 1];
      CourseGrades(rows, cid) ==
        if r[3] != "" && r[1] == cid then CourseGrades(rows[..|rows| - 1], cid)[r[0] := r[3]]
        else CourseGrades(rows[..|rows| - 1], cid)
  {
  }

  /** Every entry of the pair table is one of the records. */
  lemma {:induction false} ByPairFromRow(rows: Table, p: (string, string))
    requires p in ByPair(rows)
    ensures exists i :: 0 <= i < |rows| && rows[i] == ByPair(rows)[p]
  {
    var front := rows[..|rows| - 1];
    var r := rows[|rows| - 1];
    if p != PairKey(r) {
      ByPairFromRow(front, p);
      var i :| 0 <= i < |front| && front[i] == ByPair(front)[p];
      assert rows[i] == front[i];
    }
  }

  // ---------------------------------------------------------------------------
  // The grade rewrite of the enrollments file

  /** The record is the one being graded: same student, course and semester. */
  predicate Matches(r: Row, sid: string, cid: string, semester: string)
  {
    Field(r, 0) == Some(sid) && Field(r, 1) == Some(cid) && Field(r, 2) == Some(semester)
  }

  predicate AnyMatch(rows: Table, sid: string, cid: string, semester: string)
  {
    exists i :: 0 <= i < |rows| && Matches(rows[i], sid, cid, semester)
  }

  /** The four named fields of a record, re-emitted without change. */
  function Normalized(r: Row): Row
  {
    [Col(r, 0), Col(r, 1), Col(r, 2), Col(r, 3)]
  }

  /** What the rewrite emits for one non-blank record. */
  function RowAfter(r: Row, sid: string, cid: string, semester: string, grade: string): Row
  {
    if Matches(r, sid, cid, semester) then [r[0], r[1], r[2], grade] else Normalized(r)
  }

  /** The records of the rewritten file, in the order of the input. */
  function Rewritten(rows: Table, sid: string, cid: string, semester: string, grade: string): (out: Table)
    ensures AllWidth(out, 4)
  {
    if rows == [] then []
    else if rows[0] == [] then Rewritten(rows[1..], sid, cid, semester, grade)
    else [RowAfter(rows[0], sid, cid, semester, grade)] + Rewritten(rows[1..], sid, cid, semester, grade)
  }

  /** The rewritten file holds one record per record the reader yields. */
  lemma {:induction false} RewrittenCount(rows: Table, sid: string, cid: string, semester: string, grade: string)
    ensures |Rewritten(rows, sid, cid, semester, grade)| == RecordCount(rows)
  {
    if rows != [] {
      RewrittenCount(rows[1..], sid, cid, semester, grade);
    }
  }

  lemma {:induction false} RewrittenAppend(rows: Table, r: Row, sid: string, cid: string, semester: string, grade: string)
    ensures Rewritten(rows + [r], sid, cid, semester, grade) ==
      Rewritten(rows, sid, cid, semester, grade) + (if r == [] then [] else [RowAfter(r, sid, cid, semester, grade)])
  {
    if rows == [] {
      assert [] + [r] == [r];
      assert [r][1..] == [];
    } else {
      assert (rows + [r])[0] == rows[0];
      assert (rows + [r])[1..] == rows[1..] + [r];
      RewrittenAppend(rows[1..], r, sid, cid, semester, grade);
    }
  }

  /** The rewrite keeps the number and order of the records: only a record that
      matches the triple gets the new grade, and every other four-field record is
      copied as it is. */
  lemma {:induction false} RewrittenAt(rows: Table, i: nat, sid: string, cid: string, semester: string, grade: string)
    requires NoBlank(rows) && i < |rows|
    ensures |Rewritten(rows, sid, cid, semester, grade)| == |rows|
    ensures Matches(rows[i], sid, cid, semester) ==>
      Rewritten(rows, sid, cid, semester, grade)[i] == rows[i][..3] + [grade]
    ensures !Matches(rows[i], sid, cid, semester) && |rows[i]| == 4 ==>
      Rewritten(rows, sid, cid, semester, grade)[i] == rows[i]
  {
    RewrittenCount(rows, sid, cid, semester, grade);
    assert rows[0] != [];
    if i > 0 {
      assert NoBlank(rows[1..]) by {
        forall j | 0 <= j < |rows[1..]| ensures rows[1..][j] != [] { assert rows[1..][j] == rows[j + 1]; }
      }
      RewrittenAt(rows[1..], i - 1, sid, cid, semester, grade);
    } else {
      var r := rows[0];
      if !Matches(r, sid, cid, semester) && |r| == 4 {
        assert Normalized(r) == r;
      }
    }
  }

  /** With no matching record, a file of four-field records is rewritten unchanged. */
  lemma {:induction false} RewrittenNoMatch(rows: Table, sid: string, cid: string, semester: string, grade: string)
    requires AllWidth(rows, 4)
    requires !AnyMatch(rows, sid, cid, semester)
    ensures Rewritten(rows, sid, cid, semester, grade) == rows
  {
    if rows != [] {
      assert !Matches(rows[0], sid, cid, semester);
      assert Normalized(rows[0]) == rows[0];
      assert !AnyMatch(rows[1..], sid, cid, semester) by {
        forall j | 0 <= j < |rows[1..]| ensures !Matches(rows[1..][j], sid, cid, semester) {
          assert rows[1..][j] == rows[j + 1];
        }
      }
      RewrittenNoMatch(rows[1..], sid, cid, semester, grade);
    }
  }

  /** When no record matches, rewriting a file the program wrote itself gives
      back the same file. */
  lemma UnmatchedRewriteKeepsFile(t: Table, sid: string, cid: string, semester: string, grade: string)
    requires StandardEnrollmentsFile(t) && !AnyMatch(DataRows(t), sid, cid, semester)
    ensures [EnrollmentHeader] + Rewritten(DataRows(t), sid, cid, semester, grade) == t
  {
    RewrittenNoMatch(DataRows(t), sid, cid, semester, grade);
    assert t == [t[0]] + t[1..];
  }

  /** Recording the same grade twice leaves the file as recording it once does,
      provided every record has its three key fields. */
  lemma {:induction false} RewrittenIdempotent(rows: Table, sid: string, cid: string, semester: string, grade: string)
    requires forall i :: 0 <= i < |rows| ==> |rows[i]| >= 3
    ensures Rewritten(Rewritten(rows, sid, cid, semester, grade), sid, cid, semester, grade) ==
      Rewritten(rows, sid, cid, semester, grade)
  {
    if rows != [] {
      var r := rows[0];
      var r' := RowAfter(r, sid, cid, semester, grade);
      assert r' != [];
      assert RowAfter(r', sid, cid, semester, grade) == r';
      var rest := Rewritten(rows[1..], sid, cid, semester, grade);
      assert ([r'] + rest)[0] == r' && ([r'] + rest)[1..] == rest;
      RewrittenIdempotent(rows[1..], sid, cid, semester, grade);
    }
  }

  /** A table with every entry passed through the rewrite of one record. */
  function RegradeEntries(m: map<(string, string), Row>, sid: string, cid: string, semester: string, grade: string)
    : map<(string, string), Row>
  {
    map p | p in m :: RowAfter(m[p], sid, cid, semester, grade)
  }

  lemma RegradeEntriesUpdate(m: map<(string, string), Row>, k: (string, string), r: Row,
                             sid: string, cid: string, semester: string, grade: string)
    ensures RegradeEntries(m[k := r], sid, cid, semester, grade) ==
      RegradeEntries(m, sid, cid, semester, grade)[k := RowAfter(r, sid, cid, semester, grade)]
  {
  }

  /** Over a table whose entries are four-field rows under their own pair, the
      rewrite changes at most the entry of the graded pair, and that one only
      when its semester is the one graded. */
  lemma RegradeEntriesAt(m: map<(string, string), Row>, sid: string, cid: string, semester: string, grade: string)
    requires forall p :: p in m ==> |m[p]| == 4 && PairKey(m[p]) == p
    ensures (sid, cid) in m && m[(sid, cid)][2] == semester ==>
      RegradeEntries(m, sid, cid, semester, grade) == m[(sid, cid) := m[(sid, cid)][..3] + [grade]]
    ensures !((sid, cid) in m && m[(sid, cid)][2] == semester) ==>
      RegradeEntries(m, sid, cid, semester, grade) == m
  {
    forall p | p in m
      ensures RowAfter(m[p], sid, cid, semester, grade) ==
        if p == (sid, cid) && m[p][2] == semester then m[p][..3] + [grade] else m[p]
    {
      var r := m[p];
      assert r == [r[0], r[1], r[2], r[3]];
    }
  }

  /** Reloading the rewritten file gives, for every (student, course) pair, the
      rewrite of the row that loading the old file gave. */
  lemma {:induction false} ByPairRewritten(rows: Table, sid: string, cid: string, semester: string, grade: string)
    requires NoBlank(rows)
    ensures ByPair(Rewritten(rows, sid, cid, semester, grade)) ==
      RegradeEntries(ByPair(rows), sid, cid, semester, grade)
  {
    if rows != [] {
      var front := rows[..|rows| - 1];
      var r := rows[|rows| - 1];
      var front' := Rewritten(front, sid, cid, semester, grade);
      var r' := RowAfter(r, sid, cid, semester, grade);
      assert PairKey(r') == PairKey(r);
      calc {
        ByPair(Rewritten(rows, sid, cid, semester, grade));
        { assert rows == front + [r]; RewrittenAppend(front, r, sid, cid, semester, grade); }
        ByPair(front' + [r']);
        { ByPairSnoc(front', r'); }
        ByPair(front')[PairKey(r) := r'];
        { ByPairRewritten(front, sid, cid, semester, grade); }
        RegradeEntries(ByPair(front), sid, cid, semester, grade)[PairKey(r) := r'];
        { RegradeEntriesUpdate(ByPair(front), PairKey(r), r, sid, cid, semester, grade); }
        RegradeEntries(ByPair(front)[PairKey(r) := r], sid, cid, semester, grade);
      }
    }
  }

  /** The loop of the grade rewrite: walks the records in order, builds the new
      list and notes whether any record matched. */
  method RewriteGradeRows(rows: Table, sid: string, cid: string, semester: string, grade: string)
    returns (upDt: Table, isAdded: bool)
    ensures upDt == Rewritten(rows, sid, cid, semester, grade)
    ensures isAdded <==> AnyMatch(rows, sid, cid, semester)
  {
    upDt, isAdded := [], false;
    var i := 0;
    while i < |rows|
      invariant 0 <= i <= |rows|
      invariant upDt == Rewritten(rows[..i], sid, cid, semester, grade)
      invariant isAdded <==> AnyMatch(rows[..i], sid, cid, semester)
    {
      var r := rows[i];
      assert rows[..i + 1] == rows[..i] + [r];
      RewrittenAppend(rows[..i], r, sid, cid, semester, grade);
      if r != [] {
        if Matches(r, sid, cid, semester) {
          upDt := upDt + [[r[0], r[1], r[2], grade]];
          isAdded := true;
        } else {
          upDt := upDt + [Normalized(r)];
        }
      }
      assert AnyMatch(rows[..i + 1], sid, cid, semester) <==>
        AnyMatch(rows[..i], sid, cid, semester) || Matches(r, sid, cid, semester) by {
        if Matches(r, sid, cid, semester) { assert rows[..i + 1][i] == r; }
        if AnyMatch(rows[..i + 1], sid, cid, semester) {
          var j :| 0 <= j < i + 1 && Matches(rows[..i + 1][j], sid, cid, semester);
          if j < i { assert rows[..i + 1][j] == rows[..i][j]; }
        }
        if AnyMatch(rows[..i], sid, cid, semester) {
          var j :| 0 <= j < i && Matches(rows[..i][j], sid, cid, semester);
          assert rows[..i + 1][j] == rows[..i][j];
        }
      }
      i := i + 1;
    }
    assert rows[..i] == rows;
  }
}

=== FILE: school.dfy ===
/** The school records manager: the three tables in memory, the contents of
    the three backing files, and the operations of the menu (register a
    student, enroll a student in a course, grade a student, show a student,
    show a course). Every change to the tables is proved to be the matching
    change of the Records module, and every change to the files is stated
    record by record. */
module School {
  import opened CsvRows
  import opened Records

  /** What an operation reports to the user. */
  datatype Status =
    | NoSuchStudent      // the student id is not in the student table
    | NoSuchCourse       // the course id is not in the course table
    | NotEnrolled        // no enrollment under (student id, course id)
    | Enrolled           // the enrollment was stored and appended to its file
    | GradeRecorded      // at least one record matched and got the grade
    | GradeNotRecorded   // no record matched (student, course, semester)

  /** One course of a student's card; the grade is shown only when non-empty. */
  datatype CourseLine = CourseLine(name: string, credit: string, grade: Option<string>)
  datatype StudentCard = StudentCard(name: string, email: string, courses: map<string, CourseLine>)

  /** One student on a course's roster; the grade is shown only when non-empty. */
  datatype StudentLine = StudentLine(name: string, email: string, grade: Option<string>)
  datatype CourseCard = CourseCard(name: string, credit: string, students: map<string, StudentLine>)

  /** A grade as the display shows it: absent and empty grades are not shown. */
  function Shown(g: Option<string>): (r: Option<string>)
    ensures r.Some? <==> g.Some? && g.value != ""
    ensures r.Some? ==> r == g
  {
    if g.Some? && g.value != "" then g else None
  }

  /** A dictionary lookup that gives None for a missing key. */
  function Lookup(m: map<string, string>, k: string): (r: Option<string>)
    ensures r.Some? <==> k in m
    ensures r.Some? ==> r.value == m[k]
  {
    if k in m then Some(m[k]) else None
  }

  /** The new student's id: one more than the number of records in the students
      file, written in decimal. */
  function NextId(studentsFile: Table): string
  {
    DecimalString(RecordCount(DataRows(studentsFile)) + 1)
  }

  /** When the students file numbers its records 1, 2, 3, ... in order, the
      next id is not taken. */
  lemma NextIdFresh(studentsFile: Table)
    requires NoBlank(DataRows(studentsFile))
    requires forall i :: 0 <= i < |DataRows(studentsFile)| ==>
      Col(DataRows(studentsFile)[i], 0) == DecimalString(i + 1)
    ensures NextId(studentsFile) !in ById(DataRows(studentsFile))
  {
    var rows := DataRows(studentsFile);
    var k := NextId(studentsFile);
    ByIdLastRow(rows, k);
    if k in ById(rows) {
      var i :| 0 <= i < |rows| && Col(rows[i], 0) == k;
      DecimalStringInjective(i + 1, |rows| + 1);
    }
  }

  /** A students file whose only record carries id "2" gives the new student
      id "2" as well, which is already taken. */
  lemma IdCollision(header: Row, name: string, email: string)
    requires header != []
    ensures NextId([header, ["2", name, email]]) == "2"
    ensures "2" in ById(DataRows([header, ["2", name, email]]))
  {
    var rows := [["2", name, email]];
    assert DataRows([header, ["2", name, email]]) == rows;
    assert RecordCount(rows) == 1 by {
      assert rows[1..] == [];
    }
    assert ById(rows) == ById(rows[..0])[Col(rows[0], 0) := rows[0]];
  }

  /** Appending a record to a students file that has its header row moves the
      next id on, so two registrations in a row get different ids. */
  lemma NextIdAdvances(studentsFile: Table, row: Row)
    requires studentsFile != [] && row != []
    ensures RecordCount(DataRows(studentsFile + [row])) == RecordCount(DataRows(studentsFile)) + 1
    ensures NextId(studentsFile + [row]) != NextId(studentsFile)
  {
    assert DataRows(studentsFile + [row]) == DataRows(studentsFile) + [row];
    RecordCountAppend(DataRows(studentsFile), row);
    DecimalStringInjective(RecordCount(DataRows(studentsFile)) + 1, RecordCount(DataRows(studentsFile)) + 2);
  }

  /** On a students file holding only its header, the first two registrations
      get ids "1" and "2"; on a file with no header row at all, the first
      record written is then read as the header, so the second registration
      gets "1" again. */
  lemma {:induction false} FirstIds(header: Row, name: string, email: string)
    requires header != []
    ensures NextId([header]) == "1" && NextId([header, ["1", name, email]]) == "2"
    ensures NextId([]) == "1" && NextId([["1", name, email]]) == "1"
  {
    assert DataRows([header, ["1", name, email]]) == [["1", name, email]];
    assert RecordCount([["1", name, email]]) == 1 by {
      assert [["1", name, email]][1..] == [];
    }
  }

  class SchoolManager {
    var students: map<string, Student>
    var courses: map<string, Course>
    var enrollments: map<(string, string), Enrollment>
    /** The contents of the three backing files, header row included. */
    var studentsFile: Table
    var coursesFile: Table
    var enrollmentsFile: Table

    /** The three tables as one value. */
    function Tables(): Store
      reads this`students, this`courses, this`enrollments
    {
      Store(students, courses, enrollments)
    }

    ghost predicate Valid()
      reads this`students, this`courses, this`enrollments
    {
      Consistent(Tables())
    }

    /** Reloading the students file would give back the student table. */
    ghost predicate StudentsMirror()
      reads this`students, this`studentsFile
    {
      AllWidth(DataRows(studentsFile), 3) && ById(DataRows(studentsFile)) == StudentRows(students)
    }

    /** Reloading the courses file would give back the course table. */
    ghost predicate CoursesMirror()
      reads this`courses, this`coursesFile
    {
      AllWidth(DataRows(coursesFile), 3) && ById(DataRows(coursesFile)) == CourseRows(courses)
    }

    /** Reloading the enrollments file would give back the enrollment table. */
    ghost predicate EnrollmentsMirror()
      reads this`enrollments, this`enrollmentsFile
    {
      AllWidth(DataRows(enrollmentsFile), 4) && ByPair(DataRows(enrollmentsFile)) == EnrollmentRows(enrollments)
    }

    /** Builds the store from the three files: students, then courses, then
        enrollments. A record that cannot be unpacked, or an enrollment naming a
        student or course that is not loaded, stops the program, so the files
        must be free of both. */
    constructor (studentsFile: Table, coursesFile: Table, enrollmentsFile: Table)
      requires Loadable(studentsFile, coursesFile, enrollmentsFile)
      ensures this.studentsFile == studentsFile && this.coursesFile == coursesFile
      ensures this.enrollmentsFile == enrollmentsFile
      ensures Tables() == Loaded(studentsFile, coursesFile, enrollmentsFile)
      ensures Valid() && Exact(Tables())
      ensures StudentsMirror() && CoursesMirror() && EnrollmentsMirror()
      ensures forall k :: k in courses ==> courses[k].grades == CourseGrades(DataRows(enrollmentsFile), k)
    {
      this.studentsFile, this.coursesFile, this.enrollmentsFile := studentsFile, coursesFile, enrollmentsFile;
      students, courses, enrollments := map[], map[], map[];
      new;
      Load();
    }

    /** The three loaders in the order the constructor runs them, on empty tables. */
    method Load()
      requires Loadable(studentsFile, coursesFile, enrollmentsFile)
      requires students == map[] && courses == map[] && enrollments == map[]
      modifies this`students, this`courses, this`enrollments
      ensures Tables() == Loaded(studentsFile, coursesFile, enrollmentsFile)
      ensures Valid() && Exact(Tables())
      ensures StudentsMirror() && CoursesMirror() && EnrollmentsMirror()
      ensures forall k :: k in courses ==> courses[k].grades == CourseGrades(DataRows(enrollmentsFile), k)
    {
      LoadStudents();
      LoadCourses();
      assert Tables() == Catalogued(studentsFile, coursesFile);
      CataloguedKnown(studentsFile, coursesFile, enrollmentsFile);
      LoadEnrollments();
      LoadedConsistent(studentsFile, coursesFile, enrollmentsFile);
      LoadedMirrors(studentsFile, coursesFile, enrollmentsFile);
      LoadedGrades(studentsFile, coursesFile, enrollmentsFile);
    }

    /** Puts one student per record of the students file under its id, in file
        order, each with an empty index. */
    method LoadStudents()
      requires AllWidth(DataRows(studentsFile), 3)
      modifies this`students
      ensures Tables() == LoadStudentRecords(old(Tables()), DataRows(studentsFile))
    {
      var rows := DataRows(studentsFile);
      var j := 0;
      while j < |rows|
        invariant 0 <= j <= |rows|
        invariant AllWidth(rows[..j], 3)
        invariant Tables() == LoadStudentRecords(old(Tables()), rows[..j])
      {
        var r := rows[j];
        assert rows[..j + 1][..j] == rows[..j];
        students := students[r[0] := Student(r[0], r[1], r[2], {})];
        j := j + 1;
      }
      assert rows[..j] == rows;
    }

    /** Puts one course per record of the courses file under its id, in file
        order, each with an empty roster and no grades. */
    method LoadCourses()
      requires AllWidth(DataRows(coursesFile), 3)
      modifies this`courses
      ensures Tables() == LoadCourseRecords(old(Tables()), DataRows(coursesFile))
    {
      var rows := DataRows(coursesFile);
      var j := 0;
      while j < |rows|
        invariant 0 <= j <= |rows|
        invariant AllWidth(rows[..j], 3)
        invariant Tables() == LoadCourseRecords(old(Tables()), rows[..j])
      {
        var r := rows[j];
        assert rows[..j + 1][..j] == rows[..j];
        courses := courses[r[0] := Course(r[0], r[1], r[2], map[], map[])];
        j := j + 1;
      }
      assert rows[..j] == rows;
    }

    /** Loads every record of the enrollments file, in file order. */
    method LoadEnrollments()
      requires Known(Tables(), DataRows(enrollmentsFile))
      modifies this`students, this`courses, this`enrollments
      ensures Tables() == LoadEnrollmentRecords(old(Tables()), DataRows(enrollmentsFile))
    {
      var rows := DataRows(enrollmentsFile);
      ghost var st := Tables();
      var j := 0;
      KnownPrefix(st, rows, 0);
      while j < |rows|
        invariant 0 <= j <= |rows|
        invariant Known(st, rows[..j])
        invariant Tables() == LoadEnrollmentRecords(st, rows[..j])
      {
        var r := rows[j];
        KnownPrefix(st, rows, j + 1);
        assert rows[..j + 1][..j] == rows[..j];
        LoadEnrollment(r);
        j := j + 1;
      }
      assert rows[..j] == rows;
    }

    /** The body of the loading loop for one four-field record: an enrollment of
        the record's student in its course, linked both ways, and its grade
        recorded in the course when non-empty. */
    method LoadEnrollment(r: Row)
      requires |r| == 4 && r[0] in students && r[1] in courses
      modifies this`students, this`courses, this`enrollments
      ensures Tables() == LoadEnrollmentRecord(old(Tables()), r)
    {
      Enroll(Enrollment(r[0], r[1], r[2], Some(r[3])));
      if r[3] != "" {
        courses := courses[r[1] := courses[r[1]].AddGrade(students[r[0]], r[3])];
      }
    }

    /** Stores the enrollment under its (student id, course id) pair, replacing
        any earlier one, adds the course to the student's index and then the
        student to the course's roster. */
    method Enroll(e: Enrollment)
      requires e.studentId in students && e.courseId in courses
      modifies this`students, this`courses, this`enrollments
      ensures Tables() == PutEnrollment(old(Tables()), e)
    {
      enrollments := enrollments[(e.studentId, e.courseId) := e];
      var student := students[e.studentId].AddCourse(courses[e.courseId]);
      students := students[e.studentId := student];
      courses := courses[e.courseId := courses[e.courseId].AddStudent(student)];
    }

    /** Appends the student's record to the students file. */
    method WriteStudent(student: Student)
      modifies this`studentsFile
      ensures studentsFile == old(studentsFile) + [StudentRow(student)]
    {
      studentsFile := studentsFile + [StudentRow(student)];
    }

    /** Appends the enrollment's record to the enrollments file; an absent grade
        is written as an empty field. */
    method WriteEnrollment(e: Enrollment)
      modifies this`enrollmentsFile
      ensures enrollmentsFile == old(enrollmentsFile) + [EnrollmentRow(e)]
    {
      enrollmentsFile := enrollmentsFile + [EnrollmentRow(e)];
    }

    /** Rewrites the whole enrollments file under the standard header, giving the
        grade to every record of (student, course, semester); when at least one
        record matched, gives the grade to the pair's enrollment and records it
        in the course. The records are read by column name, so a file with
        records must start with the standard header; a file of one row has
        that row read as the header and no records, and is rewritten to the
        bare header. */
    method WriteGrade(sid: string, cid: string, semester: string, grade: string) returns (isAdded: bool)
      requires (sid, cid) in enrollments && sid in students && cid in courses
      requires |enrollmentsFile| <= 1 || enrollmentsFile[0] == EnrollmentHeader
      modifies this`enrollmentsFile, this`enrollments, this`courses
      ensures isAdded <==> AnyMatch(DataRows(old(enrollmentsFile)), sid, cid, semester)
      ensures enrollmentsFile == [EnrollmentHeader] + Rewritten(DataRows(old(enrollmentsFile)), sid, cid, semester, grade)
      ensures isAdded ==> Tables() == Regrade(old(Tables()), sid, cid, grade)
      ensures !isAdded ==> Tables() == old(Tables())
      ensures old(Valid()) ==> Valid()
      ensures old(Valid() && Exact(Tables())) ==> Exact(Tables())
      ensures !isAdded && StandardEnrollmentsFile(old(enrollmentsFile)) ==> enrollmentsFile == old(enrollmentsFile)
      ensures !isAdded && old(EnrollmentsMirror()) ==> EnrollmentsMirror()
      ensures isAdded && old(EnrollmentsMirror()) && old(enrollments[(sid, cid)].semester) == semester ==>
        EnrollmentsMirror()
    {
      var rows := DataRows(enrollmentsFile);
      ghost var st := Tables();
      if Valid() {
        RegradeConsistent(st, sid, cid, grade);
      }
      if EnrollmentsMirror() {
        if st.enrollments[(sid, cid)].semester == semester {
          RegradeMirror(st, rows, sid, cid, semester, grade);
        }
        if !AnyMatch(rows, sid, cid, semester) {
          RewrittenNoMatch(rows, sid, cid, semester, grade);
        }
      }
      if StandardEnrollmentsFile(enrollmentsFile) && !AnyMatch(rows, sid, cid, semester) {
        UnmatchedRewriteKeepsFile(enrollmentsFile, sid, cid, semester, grade);
      }
      var upDt;
      upDt, isAdded := RewriteGradeRows(rows, sid, cid, semester, grade);
      if isAdded {
        enrollments := enrollments[(sid, cid) := enrollments[(sid, cid)].SetGrade(grade)];
        courses := courses[cid := courses[cid].AddGrade(students[sid], grade)];
      }
      enrollmentsFile := [EnrollmentHeader] + upDt;
    }

    /** Registers a new student under the next sequential id and appends its
        record to the students file; a student already under that id is
        displaced. */
    method AddStudent(name: string, email: string) returns (id: string)
      modifies this`students, this`studentsFile
      ensures id == NextId(old(studentsFile))
      ensures Tables() == PutStudent(old(Tables()), Student(id, name, email, {}))
      ensures studentsFile == old(studentsFile) + [[id, name, email]]
      ensures old(Valid()) ==> Valid()
      ensures old(Valid() && Exact(Tables())) && id !in old(students) ==> Exact(Tables())
      ensures old(studentsFile) != [] && old(StudentsMirror()) ==> StudentsMirror()
      ensures old(studentsFile) != [] ==> NextId(studentsFile) != id
    {
      id := NextId(studentsFile);
      var student := Student(id, name, email, {});
      if Valid() {
        PutStudentConsistent(Tables(), student);
        if Exact(Tables()) && id !in students {
          PutStudentExact(Tables(), student);
        }
      }
      if studentsFile != [] {
        NextIdAdvances(studentsFile, StudentRow(student));
        if StudentsMirror() {
          StudentsAppend(students, studentsFile, student);
        }
      }
      students := students[id := student];
      WriteStudent(student);
    }

    /** Enrolls an existing student in an existing course for a semester and
        appends the record, with an empty grade, to the enrollments file. The
        table is keyed by (student id, course id) only, so an earlier enrollment
        of the pair is replaced whatever its semester. */
    method EnrollStudent(sid: string, cid: string, semester: string) returns (status: Status)
      modifies this`students, this`courses, this`enrollments, this`enrollmentsFile
      ensures status == (if sid !in old(students) then NoSuchStudent
                         else if cid !in old(courses) then NoSuchCourse
                         else Enrolled)
      ensures status != Enrolled ==> unchanged(this)
      ensures status == Enrolled ==>
        && Tables() == PutEnrollment(old(Tables()), Enrollment(sid, cid, semester, None))
        && enrollmentsFile == old(enrollmentsFile) + [[sid, cid, semester, ""]]
      ensures old(Valid()) ==> Valid()
      ensures old(Valid() && Exact(Tables())) ==> Exact(Tables())
      ensures old(enrollmentsFile) != [] && old(EnrollmentsMirror()) ==> EnrollmentsMirror()
    {
      if sid !in students {
        return NoSuchStudent;
      }
      if cid !in courses {
        return NoSuchCourse;
      }
      EnrollAndWrite(Enrollment(sid, cid, semester, None));
      status := Enrolled;
    }

    /** Stores and links the enrollment, then appends its record to the
        enrollments file. */
    method EnrollAndWrite(e: Enrollment)
      requires e.studentId in students && e.courseId in courses
      modifies this`students, this`courses, this`enrollments, this`enrollmentsFile
      ensures Tables() == PutEnrollment(old(Tables()), e)
      ensures enrollmentsFile == old(enrollmentsFile) + [EnrollmentRow(e)]
      ensures old(Valid()) ==> Valid()
      ensures old(Valid() && Exact(Tables())) ==> Exact(Tables())
      ensures old(enrollmentsFile) != [] && old(EnrollmentsMirror()) ==> EnrollmentsMirror()
    {
      if Valid() {
        PutEnrollmentConsistent(Tables(), e);
        if Exact(Tables()) {
          PutEnrollmentExact(Tables(), e);
        }
      }
      if enrollmentsFile != [] && EnrollmentsMirror() {
        EnrollmentsAppend(enrollments, enrollmentsFile, e);
      }
      Enroll(e);
      WriteEnrollment(e);
    }

    /** Records a grade for (student, course, semester). The student, the course
        and an enrollment of the pair must exist; then the enrollments file is
        rewritten, and the grade reaches the pair's enrollment and the course
        only if some record carries the exact triple. */
    method GradeStudent(sid: string, cid: string, semester: string, grade: string) returns (status: Status)
      requires sid in students && cid in courses && (sid, cid) in enrollments ==>
        |enrollmentsFile| <= 1 || enrollmentsFile[0] == EnrollmentHeader
      modifies this`enrollmentsFile, this`enrollments, this`courses
      ensures status == (if sid !in old(students) then NoSuchStudent
                         else if cid !in old(courses) then NoSuchCourse
                         else if (sid, cid) !in old(enrollments) then NotEnrolled
                         else if AnyMatch(DataRows(old(enrollmentsFile)), sid, cid, semester) then GradeRecorded
                         else GradeNotRecorded)
      ensures status in {NoSuchStudent, NoSuchCourse, NotEnrolled} ==> unchanged(this)
      ensures status in {GradeRecorded, GradeNotRecorded} ==>
        enrollmentsFile == [EnrollmentHeader] + Rewritten(DataRows(old(enrollmentsFile)), sid, cid, semester, grade)
      ensures status == GradeRecorded ==> Tables() == Regrade(old(Tables()), sid, cid, grade)
      ensures status != GradeRecorded ==> Tables() == old(Tables())
      ensures old(Valid()) ==> Valid()
      ensures old(Valid() && Exact(Tables())) ==> Exact(Tables())
      ensures status == GradeNotRecorded && StandardEnrollmentsFile(old(enrollmentsFile)) ==>
        enrollmentsFile == old(enrollmentsFile)
      ensures status == GradeNotRecorded && old(EnrollmentsMirror()) ==> EnrollmentsMirror()
      ensures status == GradeRecorded && old(EnrollmentsMirror()) && old(enrollments[(sid, cid)].semester) == semester ==>
        EnrollmentsMirror()
    {
      if sid !in students {
        return NoSuchStudent;
      }
      if cid !in courses {
        return NoSuchCourse;
      }
      if (sid, cid) !in enrollments {
        return NotEnrolled;
      }
      var isAdded := WriteGrade(sid, cid, semester, grade);
      status := if isAdded then GradeRecorded else GradeNotRecorded;
    }

    /** The card of a student: name, email and, for each course in the student's
        index, its name, credit and the grade the course holds for the student. */
    function DisplayStudent(id: string): (r: Option<StudentCard>)
      requires Valid()
      reads this`students, this`courses, this`enrollments
      ensures r.Some? <==> id in students
      ensures r.Some? ==> r.value.name == students[id].name && r.value.email == students[id].email
      ensures r.Some? ==> r.value.courses.Keys == students[id].courses
      ensures r.Some? ==> forall c :: c in r.value.courses ==> (id, c) in enrollments
      ensures r.Some? && Exact(Tables()) ==> forall c :: c in r.value.courses <==> (id, c) in enrollments
      ensures r.Some? ==> forall c :: c in r.value.courses ==>
        c in courses &&
        r.value.courses[c] == CourseLine(courses[c].name, courses[c].credit, Shown(Lookup(courses[c].grades, id)))
    {
      if id !in students then None
      else
        var student := students[id];
        Some(StudentCard(student.name, student.email,
          map c | c in student.courses ::
            CourseLine(courses[c].name, courses[c].credit, Shown(Lookup(courses[c].grades, id)))))
    }

    /** The roster of a course: name, credit and, for each enrolled student, the
        student's name, email and the grade of that enrollment. */
    function DisplayCourse(id: string): (r: Option<CourseCard>)
      requires Valid()
      reads this`courses, this`enrollments, this`students
      ensures r.Some? <==> id in courses
      ensures r.Some? ==> r.value.name == courses[id].name && r.value.credit == courses[id].credit
      ensures r.Some? ==> forall s :: s in r.value.students <==> (s, id) in enrollments
      ensures r.Some? ==> forall s :: s in r.value.students ==>
        r.value.students[s].grade == Shown(enrollments[(s, id)].grade)
      ensures r.Some? ==> forall s :: s in r.value.students ==>
        r.value.students[s].name == courses[id].students[s].name &&
        r.value.students[s].email == courses[id].students[s].email
      ensures r.Some? && Exact(Tables()) ==> forall s :: s in r.value.students ==>
        s in students && r.value.students[s].name == students[s].name && r.value.students[s].email == students[s].email
    {
      if id !in courses then None
      else
        var course := courses[id];
        Some(CourseCard(course.name, course.credit,
          map s | s in course.students ::
            StudentLine(course.students[s].name, course.students[s].email,
                        Shown(enrollments[(course.students[s].id, id)].grade))))
    }
  }
}
